=== FILE: README.md ===
# Rembus client protocol engine, in Dafny

This project models the client side of the Rembus bus (`src/rembus.js`). A
`Component` connects to a broker over one WebSocket. It identifies itself
with an IDENTITY frame and, when challenged, answers with an ATTESTATION.
It issues RPC calls, publishes on topics, and registers handlers for
subscribed topics and exposed methods.

Every asynchronous event is one sequential step over an immutable client
state:

- an operation the application calls (`rpc`, `publish`, `connect`, `subscribe`,
  `expose`, `reactive`, `unsubscribe`);
- an inbound message (`handleInput`);
- a request timer firing;
- the resumption of an awaiting operation once the request it awaits has
  settled.

The state holds the endpoint, the handler registry, the pending-request
table (`reqres`), one completer per `waitForResponse` call, the frames sent
so far (an outbox sequence), the handler invocations, and the progress of
each call of `connect`. Each handshake continuation names the `connect`
call it belongs to, so concurrent calls keep separate results.

Modules:

- `Values`: decoded values, including `undefined`, plus the JavaScript spread
  and out-of-range read.
- `Hex`: `arrayToHex` and its inverse.
- `Endpoints`: the constructor's URL logic and the `url` getter.
- `Frames`: type tags, status codes and the frame shapes. The outbound layout
  (`ToWire`) and the inbound reading (`ReadInbound`) are separate, because an
  inbound RPC carries its arguments at index 4 while the client sends them at
  index 3.
- `Completion`: the settler and one-shot promise settlement.
- `Client`: the state and its step functions.
- `Traces`: runs of arbitrary event sequences.
- `Properties`: multi-step properties.

Behaviours of the code that the model keeps as written:

- A request's timer (src/rembus.js:192) rejects it with status `0x46` and
  leaves its table entry in place. Only a RESPONSE deletes an entry
  (src/rembus.js:255-259). A RESPONSE arriving after the timeout still
  deletes the entry, and its settlement is ignored, since the promise has
  already been rejected.
- `unsubscribe` (src/rembus.js:304-306) only removes the local handler and
  sends no frame.
- The IDENTITY reply goes through the ordinary settler (src/rembus.js:174-188).
  Success and challenge both fulfil with the payload. `connect` attests
  exactly when that payload is not `null` (src/rembus.js:118-122), so
  `undefined` counts as non-null.
- `waitForResponse` (src/rembus.js:190) overwrites the table entry when an
  id is registered twice. The earlier completer is orphaned, but its timer
  can still fire. This is why completers are kept in a sequence apart from
  the table.
- A RESPONSE's id is looked up through `stringify(payload[1])`
  (src/rembus.js:254). This reads the first 16 elements by position, so a
  longer byte string, or an array of 16 numbers, matches an outstanding id.

One test and the code disagree. For `ws://myhost:8000` the WHATWG parser
reports the path `/`, so the code sets the identity to `""`
(src/rembus.js:78). The test at test/rembus.test.js:14-21 expects `null`.
`Endpoints.UrlExamples` states the code's result.

## Model

| member | source | states |
|---|---|---|
| `Hex.ByteToHex` | src/rembus.js:61 | each element renders as `0x` and two lowercase hex digits whose value is the element's low eight bits (`& 0xFF`) |
| `Hex.ToBase16RoundTrip` | src/rembus.js:61 | `toString(16)` produces the base-16 numeral of its argument: reading it back gives the number |
| `Hex.ArrayToHex` | src/rembus.js:59-63 | n elements render to 5n-1 characters, and the empty array renders to `""` |
| `Hex.ArrayToHexRoundTrip` | src/rembus.js:59-63 | parsing the rendering as space-separated `0xHH` groups gives back every element modulo 256, so elements are joined by single spaces, in order, nothing else |
| `Endpoints.NewEndpoint` | src/rembus.js:72-89 | a URL with a `ws:`/`wss:` scheme gives that scheme without its colon, the hostname, the port, and the path without its leading `/` as identity; any other parsed scheme fails with `"invalid protocol"`, whatever the path (`zss://myhost:8000` and `user:alice` included); `null` or unparseable text gives `ws`, `localhost`, `8000` with the text itself as identity |
| `Endpoints.UrlRoundTrip` | src/rembus.js:95-97 | the `url` getter renders `protocol://host:port` losslessly: it splits back into the three parts |
| `Endpoints.UrlExamples` | test/rembus.test.js:5-29 | `ws://myhost:8000/myc` gives identity `myc`, `ws://myhost:8000` gives identity `""` (the test expects `null`), `zss:` is refused |
| `Endpoints.BareIdentityExample` | test/rembus.test.js:31-38 | the bare text `myc` is the identity of a client of `ws://localhost:8000` |
| `Endpoints.OtherSchemesRefused` | src/rembus.js:72-82 | `zss://myhost:8000` (empty path) and `user:alice` (path without `/`) both fail with `"invalid protocol"` |
| `Frames.ToWire` | src/rembus.js:204-232 | each outbound frame is the array `[tag, ...fields]` with the tag of its kind and the id at index 1, and reads back to the same frame |
| `Frames.ReadInbound` | src/rembus.js:242-272 | PUBSUB topic and args are read at 1 and 2; a RESPONSE is read exactly when `stringify` accepts its id at 1, with status and data at 2 and 3; RPC is read exactly when its id at 1 is a byte string, with method and args at 2 and 4; any other tag is ignored; positions are read as JavaScript indexes a value, so a decoded map is read by its keys `"0"`, `"1"`, …; an outbound-layout RPC read inbound has no arguments |
| `Frames.Stringify` | src/rembus.js:254 | an id is accepted exactly when indexes 0 to 15 of it, read as JavaScript reads them, are numbers from 0 to 255; the key is those 16 values, so a byte string of at least 16 bytes gives its first 16 bytes, and later elements are ignored |
| `Completion.Settle` | src/rembus.js:174-188 | a RESPONSE fulfils with its data if and only if its status is `0x00` or `0x0B`, and otherwise rejects with `RembusError(status, data)` |
| `Client.Bus` | src/rembus.js:72-93 | construction fails exactly when the endpoint is refused; a new client has no handlers, no pending requests, has sent nothing and keeps its secret |
| `Client.WaitForResponse` | src/rembus.js:190-194 | registers a fresh unsettled completer with a pending timer under the id, replacing an existing entry, and changes nothing else |
| `Client.CallRpc` | src/rembus.js:204-210 | sends exactly `[2, id, topic, args]` and registers one pending request under `id`; the table gains that one key and no other, and every other field (endpoint, secret, handlers, connects, invocations) is unchanged |
| `Client.Publish` | src/rembus.js:212-216 | sends exactly `[1, topic, args]` and awaits nothing |
| `Client.Connect` | src/rembus.js:113-126 | each call gets its own entry after the earlier ones; a socket that does not open fails that call with status `0x0A` and sends nothing; without identity the call completes with no frame; with one it sends exactly one `[0, id, cid]` and awaits it under `id`; nothing else changes |
| `Client.Subscribe` | src/rembus.js:288-292 | sends one SETTING `add_interest` for the handler's name and registers one pending request under `id`; handlers, other table entries, connects and invocations are unchanged until the reply |
| `Client.Expose` | src/rembus.js:296-300 | sends one SETTING `add_impl` for the handler's name and registers one pending request under `id`; handlers, other table entries, connects and invocations are unchanged until the reply |
| `Client.EnableReactive` | src/rembus.js:281-286 | sends one SETTING `__config__` with `{cmd: 'reactive', status: true}` and awaits it; nothing else changes |
| `Client.Unsubscribe` | src/rembus.js:304-306 | removes the name given, or the handler's name; every other name keeps its handler and nothing is sent |
| `Client.OnPubSub` | src/rembus.js:246-252 | a registered topic's handler is called once with the spread arguments; an unknown topic changes nothing; no frame is ever sent |
| `Client.OnRpc` | src/rembus.js:263-279 | a registered method is called and exactly one `[4, id, 0x00, result]` is sent with the request's id; an unknown method changes nothing |
| `Client.OnResponse` | src/rembus.js:253-262 | an outstanding id's entry is deleted, its timer cleared and its request settled by the settler unless already settled; all other entries and requests are untouched; an unknown id changes nothing |
| `Client.HandleInput` | src/rembus.js:234-274 | inbound messages never change the handlers or any connect's state, never unsettle a request, and send at most one success RESPONSE |
| `Client.TimerFires` | src/rembus.js:192 | a pending timer rejects its request with status `0x46` "rembus timeout" and leaves the table entry in place |
| `Client.Resume` | src/rembus.js:288-302 | the awaiting code runs only after settlement and only once, never changes a settled outcome, leaves every other request alone, and changes only the state of the `connect` it belongs to; the handler registry changes only when a `subscribe`/`expose` acknowledgement fulfilled, and the only frame sent is the ATTESTATION after an IDENTITY reply with a challenge |
| `Traces.Step` | src/rembus.js:99-306 | every event keeps the client invariant and every settled outcome |
| `Traces.Run` | src/rembus.js:99-306 | any sequence of events keeps the client invariant and the endpoint |
| `Traces.RunKeepsSettled` | src/rembus.js:50-57 | first settlement wins: over any sequence of events, a settled request keeps its outcome and no request is forgotten |
| `Traces.HandlersChangeOnlyByAckOrUnsubscribe` | src/rembus.js:288-306 | a single event changes the handler registry only as `unsubscribe`, or as the fulfilled acknowledgement of a `subscribe`/`expose` registering that function |
| `Traces.ResumeSendsOnlyAttestation` | src/rembus.js:117-123 | resuming an awaiting call sends a frame only when it is the IDENTITY step of a `connect` that fulfilled with a challenge, and then sends exactly one ATTESTATION |
| `Properties.UnknownResponseIgnored` | src/rembus.js:253-255 | a RESPONSE whose id is not outstanding leaves the whole client unchanged |
| `Properties.ResponseDispatch` | src/rembus.js:253-262 | an inbound RESPONSE array is handled by the pending-request table |
| `Properties.RpcSettledByResponse` | src/rembus.js:204-210 | an rpc call's request settles as the settler says on its matching RESPONSE, which deletes its entry |
| `Properties.ResponsesCommute` | src/rembus.js:253-262 | replies to two different outstanding requests give the same client in either arrival order |
| `Properties.ConcurrentRpcIsolation` | src/rembus.js:204-210 | two rpc calls with distinct ids each settle with their own reply, whatever the arrival order |
| `Properties.TimeoutThenLateResponse` | src/rembus.js:190-194 | after a timeout the entry stays; a late reply deletes it but the request stays rejected with the timeout |
| `Properties.ResponseClearsTimer` | src/rembus.js:259 | once its reply has arrived, a request's timer no longer fires |
| `Properties.ResumeRunsOnce` | src/rembus.js:288-302 | resuming an awaiting operation twice is the same as resuming it once |
| `Properties.SubscribeActivatesOnAck` | src/rembus.js:288-294 | the handler is set, overwriting any earlier one of that name, only once the acknowledgement fulfils; a rejecting reply leaves the handlers unchanged |
| `Properties.ExposeActivatesOnAck` | src/rembus.js:296-302 | as for subscribe, with the `add_impl` command |
| `Properties.SubscribeTimeoutRegistersNothing` | src/rembus.js:290-293 | a subscription whose acknowledgement times out registers nothing |
| `Properties.IdentityStep` | src/rembus.js:117-123 | a client with identity sends one IDENTITY; an ATTESTATION `[11, id', cid, sig(challenge, secret)]` follows if and only if the reply fulfilled with a non-null payload; a rejecting reply fails that `connect`; earlier connects are untouched |
| `Properties.AttestationStep` | src/rembus.js:225-232 | after the ATTESTATION reply its `connect` completes on a fulfilling status and fails with the broker's status and reason otherwise; no other `connect` changes and nothing is sent |
| `Client.ContinueIdentity` | src/rembus.js:117-123 | after the IDENTITY reply: a non-null challenge leads to awaiting attestation, `null` to connected, a rejection to failure with its error; only that `connect` changes |
| `Properties.ConnectsKeepOwnOutcome` | src/rembus.js:113-126 | a later `connect` whose IDENTITY was rejected stays failed after an earlier `connect`'s reply is handled and resumed |
| `Properties.ResponseIdByPosition` | src/rembus.js:253-256 | a RESPONSE whose id is the outstanding id followed by extra bytes, or the 16 numbers as an array, settles that request just as the byte string does |
| `Properties.PubSubNeverReplies` | src/rembus.js:246-252 | an inbound PUBSUB changes nothing but the handler invocations |
| `Properties.MapPayloadReadByKey` | src/rembus.js:242-252 | a PUBSUB message decoded as a map with keys `"0"`, `"1"`, `"2"` is dispatched like the array form |
| `Properties.RpcAnswersExactlyOnce` | src/rembus.js:263-272 | an inbound RPC for an exposed method sends exactly one success RESPONSE with the handler's result; an unknown method changes nothing |

## Left out

- The WebSocket transport is not modelled (src/rembus.js:99-170, 197-202). This covers `isOpened`, `isClosed`, `loopUntil`, `close`, `isconnected`, the open/close/error callbacks, and `send` connecting on demand. Socket I/O and sleeps are outside the model. Whether the socket opened is the `Transport` argument of `Connect`, and a sent frame is appended to `outbox`.
- CBOR `encode`/`decode` belong to an external library. Frames are modelled as their decoded value trees.
- UUID `v4`, `parse` and `stringify` belong to an external library. Fresh correlation ids are step arguments. Ids are their 16 raw bytes, and table lookup by bytes stands for lookup by `stringify(bytes)`, assuming `stringify(parse(s)) == s`. `stringify`'s validation of the byte form is not modelled.
- `sign` (src/rembus.js:65-69) calls WebCrypto SHA-256 over a CBOR encoding. The signature is the symbolic term `Digest(challenge, secret)`, which records which inputs were signed.
- WHATWG URL parsing is a parameter (`parseUrl`) returning the parsed protocol, hostname, port and pathname.
- The browser/Node buffer unwrapping in `handleInput` (src/rembus.js:235-240) depends on the runtime environment. Inbound messages arrive already decoded.
- Handlers are pure functions from arguments to a result. Their side effects, any exceptions they throw, and promises returned by async handlers are not modelled. A call is recorded in `invocations`.
- An inbound RPC whose id is not a byte string is ignored. The source would still call the handler and coerce the id with `new Uint8Array`.
- Frames.Stringify: does not model the UUID validation `stringify` ends with. Every outstanding key comes from `v4()` and is a valid UUID, so a key that fails validation matches no entry, and the model ignores it just as the throw does. Elements that are numeric strings (`byteToHex["64"]`, or the characters of a string id) are not accepted as bytes, although JavaScript's property lookup would accept them.
- The client's ids are 16 arbitrary bytes (`Uuid`). The version and variant bits of a v4 UUID are not modelled.
- The clock is abstracted away. A `TimerFired` event may fire any pending timer at any step. In the source each timer fires 1000 ms after its `waitForResponse` (src/rembus.js:192), so timers fire in registration order. Every order the source allows is one of the model's orders, so the safety properties carry over.
- The microtask queue is abstracted away. A `Resumed` event may come at any later step. In the source the awaiting code (for example src/rembus.js:292-293) runs as a microtask, before the next inbound message. This also over-approximates the source's orders.
- When the arguments of an inbound PUBSUB or RPC for a registered name cannot be spread, the state is left unchanged. This stands for the `TypeError` the spread throws.
- JavaScript numbers are modelled as mathematical integers. This covers status codes and `arrayToHex` elements. Fractional elements of `arrayToHex` are not modelled.
- `component`, `register`/`unregister`, `privateKeyFile` and `table2tag`/`tag2table` appear in the tests (test/rembus.test.js, test/register.test.js, test/arrow.test.js) but not in src/rembus.js. There is no code to model for them.
- bin/server.py, the samples, and the rollup, vitest and jest configuration files hold no client logic.

=== FILE: client.dfy ===
/**
 * The `Component` client as an immutable state and one step function per
 * event: each operation the application calls, each inbound message, each
 * timer, and each resumption of an awaiting operation once the request it
 * awaits has settled. The socket, the codec, UUID generation and the clock
 * are outside: fresh correlation ids and transport readiness are
 * parameters, sent frames are appended to `outbox`, and each call of
 * `connect` has its own entry in `connects`.
 */
module Client {
  import opened Wrappers
  import opened Values
  import opened Endpoints
  import opened Frames
  import opened Completion

  /** A user callback registered under its function name. */
  datatype Handler = Handler(name: string, body: seq<Value> -> Value)

  /** One call of a registered handler, with the arguments it received. */
  datatype Invocation = Invocation(name: string, args: seq<Value>)

  /** What the code awaiting a request does once the request has settled. */
  datatype Continuation =
    | ReturnToCaller            // rpc, reactive: the outcome is the caller's result
    | Activate(handler: Handler) // subscribe, expose: register the handler on success
    | AfterIdentity(conn: nat)    // connect number `conn`, after its IDENTITY request
    | AfterAttestation(conn: nat) // connect number `conn`, after its ATTESTATION request

  /**
   * One call of `waitForResponse`: the completer's outcome, whether its
   * timer is still pending, and the continuation of the awaiting code
   * (`resumed` once it has run).
   */
  datatype Request = Request(outcome: Outcome, timerArmed: bool, resume: Continuation, resumed: bool)

  /** Progress of one call of `connect`: awaiting a reply, or finished with its result. */
  datatype ConnectState =
    | AwaitingIdentity
    | AwaitingAttestation
    | Connected
    | ConnectFailed(err: RembusError)

  /** Whether the socket reached the open state within the connect deadline. */
  datatype Transport = Opened | NotOpened(reason: Value)

  /** The argument of `unsubscribe`: a topic name or a handler. */
  datatype TopicRef = ByName(topic: string) | ByHandler(handler: Handler)

  /**
   * A client. `reqres` maps the id of each outstanding request to its entry
   * in `requests` (one entry per call of `waitForResponse`, in call order);
   * `connects` holds one entry per call of `connect`, in call order.
   */
  datatype Component = Component(
    endpoint: Endpoint,
    secret: Value,
    handlers: map<string, Handler>,
    reqres: map<Uuid, nat>,
    requests: seq<Request>,
    outbox: seq<Frame>,
    invocations: seq<Invocation>,
    connects: seq<ConnectState>)

  /**
   * A request's timer is pending exactly while it is unsettled: every
   * completer starts with a timer, and the timer is only cleared or fired
   * together with a settlement. So no request waits forever.
   */
  predicate Consistent(req: Request) {
    && (req.timerArmed <==> req.outcome.Waiting?)
    && (req.resumed ==> !req.outcome.Waiting?)
  }

  predicate IsHandshake(k: Continuation) {
    k.AfterIdentity? || k.AfterAttestation?
  }

  /** Which continuations a client in state `c` may hold. */
  predicate Resumable(c: Component, k: Continuation) {
    && (k.AfterIdentity? ==> c.endpoint.cid.Some?)
    && (IsHandshake(k) ==> k.conn < |c.connects|)
  }

  /**
   * The invariant every reachable client keeps: the table points at
   * existing requests, a pending timer belongs exactly to an unsettled
   * request, a continuation runs only after settlement, and a handshake
   * step belongs to an existing `connect` of a client with an identity.
   */
  predicate Valid(c: Component) {
    && (forall id :: id in c.reqres ==> c.reqres[id] < |c.requests|)
    && (forall k :: 0 <= k < |c.requests| ==> Consistent(c.requests[k]))
    && (forall k :: 0 <= k < |c.requests| ==> Resumable(c, c.requests[k].resume))
  }

  /** Every settled request keeps its outcome, and no request is forgotten. */
  ghost predicate SettledKept(c: Component, c': Component) {
    && |c.requests| <= |c'.requests|
    && forall k :: 0 <= k < |c.requests| && !c.requests[k].outcome.Waiting? ==>
         c'.requests[k].outcome == c.requests[k].outcome
  }

  /** The response frame an inbound RESPONSE with this id, status and data decodes to. */
  function ResponsePayload(id: CorrelationId, status: Value, data: Value): Value {
    Arr([Num(TypeResponse), Bytes(id), status, data])
  }

  /** `bus(url, secret)`: a fresh client, or the constructor's error. */
  function Bus(url: Option<string>, secret: Value, parseUrl: string -> Option<UrlRecord>): (r: Result<Component, string>)
    ensures r.Ok? <==> NewEndpoint(url, parseUrl).Ok?
    ensures r.Err? ==> r.error == InvalidProtocol
    ensures r.Ok? ==> Valid(r.value) && r.value.endpoint == NewEndpoint(url, parseUrl).value
    ensures r.Ok? ==> r.value.secret == secret && r.value.connects == []
    ensures r.Ok? ==> r.value.handlers == map[] && r.value.reqres == map[]
    ensures r.Ok? ==> r.value.requests == [] && r.value.outbox == [] && r.value.invocations == []
  {
    match NewEndpoint(url, parseUrl)
    case Ok(e) => Ok(Component(e, secret, map[], map[], [], [], [], []))
    case Err(msg) => Err(msg)
  }

  function Send(c: Component, f: Frame): Component {
    c.(outbox := c.outbox + [f])
  }

  /**
   * `waitForResponse(id)`: a new completer with a pending timer, entered in
   * the table under `id` (replacing any entry already there).
   */
  function WaitForResponse(c: Component, id: Uuid, resume: Continuation): (r: Component)
    requires Valid(c)
    requires Resumable(c, resume)
    ensures Valid(r)
    ensures r.reqres == c.reqres[id := |c.requests|]
    ensures r.requests == c.requests + [Request(Waiting, true, resume, false)]
    ensures r.(reqres := c.reqres, requests := c.requests) == c
  {
    c.(reqres := c.reqres[id := |c.requests|], requests := c.requests + [Request(Waiting, true, resume, false)])
  }

  /** `rpc(topic, ...args)`: send `[2, id, topic, args]` and await the reply. */
  function CallRpc(c: Component, id: Uuid, topic: string, args: seq<Value>): (r: Component)
    requires Valid(c)
    ensures Valid(r)
    ensures r.outbox == c.outbox + [Frame.Rpc(id, topic, args)]
    ensures r.reqres == c.reqres[id := |c.requests|]
    ensures r.requests == c.requests + [Request(Waiting, true, ReturnToCaller, false)]
    ensures r.(outbox := c.outbox, reqres := c.reqres, requests := c.requests) == c
  {
    WaitForResponse(Send(c, Frame.Rpc(id, topic, args)), id, ReturnToCaller)
  }

  /** `publish(topic, ...args)`: send `[1, topic, args]`; nothing is awaited. */
  function Publish(c: Component, topic: string, args: seq<Value>): (r: Component)
    ensures r.outbox == c.outbox + [PubSub(topic, args)]
    ensures r.(outbox := c.outbox) == c
  {
    Send(c, PubSub(topic, args))
  }

  /**
   * `connect()`, as call number `|c.connects|`. A socket that does not open
   * fails this call with a generic error and sends nothing. Otherwise a
   * client without identity is connected at once; a client with one sends
   * `[0, id, cid]` and awaits the reply. Earlier calls keep their state.
   */
  function Connect(c: Component, transport: Transport, id: Uuid): (r: Component)
    requires Valid(c)
    ensures Valid(r)
    ensures transport.NotOpened? ==>
      r == c.(connects := c.connects + [ConnectFailed(RembusError(Num(StsGenericError), transport.reason))])
    ensures transport.Opened? && c.endpoint.cid.None? ==> r == c.(connects := c.connects + [Connected])
    ensures transport.Opened? && c.endpoint.cid.Some? ==>
      && r.outbox == c.outbox + [Identity(id, c.endpoint.cid.value)]
      && r.connects == c.connects + [AwaitingIdentity]
      && r.reqres == c.reqres[id := |c.requests|]
      && r.requests == c.requests + [Request(Waiting, true, AfterIdentity(|c.connects|), false)]
      && r.(outbox := c.outbox, reqres := c.reqres, requests := c.requests, connects := c.connects) == c
  {
    match transport
    case NotOpened(reason) => c.(connects := c.connects + [ConnectFailed(RembusError(Num(StsGenericError), reason))])
    case Opened =>
      match c.endpoint.cid
      case None => c.(connects := c.connects + [Connected])
      case Some(cid) =>
        var c1 := c.(connects := c.connects + [AwaitingIdentity]);
        WaitForResponse(Send(c1, Identity(id, cid)), id, AfterIdentity(|c.connects|))
  }

  /** `subscribe(fn)` up to its await: send `[3, id, fn.name, {cmd: 'add_interest'}]`. */
  function Subscribe(c: Component, id: Uuid, h: Handler): (r: Component)
    requires Valid(c)
    ensures Valid(r)
    ensures r.outbox == c.outbox + [Setting(id, h.name, AddInterest)]
    ensures r.reqres == c.reqres[id := |c.requests|]
    ensures r.requests == c.requests + [Request(Waiting, true, Activate(h), false)]
    ensures r.(outbox := c.outbox, reqres := c.reqres, requests := c.requests) == c
  {
    WaitForResponse(Send(c, Setting(id, h.name, AddInterest)), id, Activate(h))
  }

  /** `expose(fn)` up to its await: send `[3, id, fn.name, {cmd: 'add_impl'}]`. */
  function Expose(c: Component, id: Uuid, h: Handler): (r: Component)
    requires Valid(c)
    ensures Valid(r)
    ensures r.outbox == c.outbox + [Setting(id, h.name, AddImpl)]
    ensures r.reqres == c.reqres[id := |c.requests|]
    ensures r.requests == c.requests + [Request(Waiting, true, Activate(h), false)]
    ensures r.(outbox := c.outbox, reqres := c.reqres, requests := c.requests) == c
  {
    WaitForResponse(Send(c, Setting(id, h.name, AddImpl)), id, Activate(h))
  }

  /** `reactive()`: send `[3, id, '__config__', {cmd: 'reactive', status: true}]` and await the reply. */
  function EnableReactive(c: Component, id: Uuid): (r: Component)
    requires Valid(c)
    ensures Valid(r)
    ensures r.outbox == c.outbox + [Setting(id, "__config__", Reactive(true))]
    ensures r.reqres == c.reqres[id := |c.requests|]
    ensures r.requests == c.requests + [Request(Waiting, true, ReturnToCaller, false)]
    ensures r.(outbox := c.outbox, reqres := c.reqres, requests := c.requests) == c
  {
    WaitForResponse(Send(c, Setting(id, "__config__", Reactive(true))), id, ReturnToCaller)
  }

  /** The name `unsubscribe` removes: the string itself, or the handler's name. */
  function TopicName(t: TopicRef): string {
    match t
    case ByName(topic) => topic
    case ByHandler(h) => h.name
  }

  /** `unsubscribe(topic)`: a local removal only; no frame is sent. */
  function Unsubscribe(c: Component, t: TopicRef): (r: Component)
    ensures TopicName(t) !in r.handlers
    ensures forall name :: name != TopicName(t) ==>
      (name in r.handlers <==> name in c.handlers) && (name in r.handlers ==> r.handlers[name] == c.handlers[name])
    ensures r.(handlers := c.handlers) == c
  {
    c.(handlers := c.handlers - {TopicName(t)})
  }

  /**
   * An inbound PUBSUB: the handler registered under the topic is called
   * with the spread arguments. Nothing is sent, whatever the topic.
   */
  function OnPubSub(c: Component, topic: Value, args: Value): (r: Component)
    ensures r.(invocations := c.invocations) == c
    ensures !(topic.Str? && topic.s in c.handlers) ==> r == c
    ensures topic.Str? && topic.s in c.handlers && Spread(args).Some? ==>
      r.invocations == c.invocations + [Invocation(topic.s, Spread(args).value)]
    ensures Spread(args).None? ==> r == c
  {
    if topic.Str? && topic.s in c.handlers then
      match Spread(args)
      case Some(xs) => c.(invocations := c.invocations + [Invocation(topic.s, xs)])
      case None => c
    else c
  }

  /**
   * An inbound RPC: the handler registered under the method is called with
   * the spread arguments and its result is sent back in one success
   * RESPONSE with the request's id. An unknown method is not answered.
   */
  function OnRpc(c: Component, id: CorrelationId, procedure: Value, args: Value): (r: Component)
    ensures r.(invocations := c.invocations, outbox := c.outbox) == c
    ensures !(procedure.Str? && procedure.s in c.handlers) ==> r == c
    ensures Spread(args).None? ==> r == c
    ensures procedure.Str? && procedure.s in c.handlers && Spread(args).Some? ==>
      var xs := Spread(args).value;
      && r.invocations == c.invocations + [Invocation(procedure.s, xs)]
      && r.outbox == c.outbox + [Response(id, StsSuccess, c.handlers[procedure.s].body(xs))]
  {
    if procedure.Str? && procedure.s in c.handlers then
      match Spread(args)
      case Some(xs) =>
        var result := c.handlers[procedure.s].body(xs);
        Send(c.(invocations := c.invocations + [Invocation(procedure.s, xs)]), Response(id, StsSuccess, result))
      case None => c
    else c
  }

  /**
   * An inbound RESPONSE. For an outstanding id the entry is removed, its
   * timer cleared and the settler applied, which changes the outcome only
   * if the request had not yet settled. Every other entry and request is
   * untouched. An id that is not outstanding changes nothing.
   */
  function OnResponse(c: Component, id: Uuid, status: Value, data: Value): (r: Component)
    requires Valid(c)
    ensures Valid(r)
    ensures id !in c.reqres ==> r == c
    ensures id in c.reqres ==>
      var k := c.reqres[id];
      && r.reqres == c.reqres - {id}
      && |r.requests| == |c.requests|
      && !r.requests[k].timerArmed
      && r.requests[k].resume == c.requests[k].resume
      && r.requests[k].resumed == c.requests[k].resumed
      && r.requests[k].outcome == (if c.requests[k].outcome.Waiting? then Settle(status, data) else c.requests[k].outcome)
      && (forall j :: 0 <= j < |c.requests| && j != k ==> r.requests[j] == c.requests[j])
      && r.(reqres := c.reqres, requests := c.requests) == c
  {
    if id in c.reqres then
      var k := c.reqres[id];
      var req := c.requests[k];
      var settled := req.(timerArmed := false, outcome := FirstSettlement(req.outcome, Settle(status, data)));
      c.(reqres := c.reqres - {id}, requests := c.requests[k := settled])
    else c
  }

  /** `handleInput`: dispatch one decoded inbound message. */
  function HandleInput(c: Component, payload: Value): (r: Component)
    requires Valid(c)
    ensures Valid(r)
    ensures SettledKept(c, r)
    ensures r.handlers == c.handlers && r.connects == c.connects && r.endpoint == c.endpoint
    ensures r.outbox == c.outbox || (|r.outbox| == |c.outbox| + 1 && r.outbox[..|c.outbox|] == c.outbox
                                     && r.outbox[|c.outbox|].Response? && r.outbox[|c.outbox|].status == StsSuccess)
    ensures ReadInbound(payload) == Ignored ==> r == c
  {
    match ReadInbound(payload)
    case InPubSub(topic, args) => OnPubSub(c, topic, args)
    case InResponse(key, status, data) => OnResponse(c, key, status, data)
    case InRpc(id, procedure, args) => OnRpc(c, id, procedure, args)
    case Ignored => c
  }

  /**
   * The timer of request `k` fires: the request rejects with the timeout
   * error. Its table entry is left in place. A cleared or already fired
   * timer does not fire.
   */
  function TimerFires(c: Component, k: nat): (r: Component)
    requires Valid(c)
    ensures Valid(r)
    ensures SettledKept(c, r)
    ensures r.reqres == c.reqres && |r.requests| == |c.requests|
    ensures k < |c.requests| && c.requests[k].timerArmed ==>
      && r.requests[k] == c.requests[k].(timerArmed := false, outcome := Rejected(TimeoutError))
      && (forall j :: 0 <= j < |c.requests| && j != k ==> r.requests[j] == c.requests[j])
      && r.(requests := c.requests) == c
    ensures !(k < |c.requests| && c.requests[k].timerArmed) ==> r == c
  {
    if k < |c.requests| && c.requests[k].timerArmed then
      var req := c.requests[k];
      c.(requests := c.requests[k := req.(timerArmed := false, outcome := FirstSettlement(req.outcome, Rejected(TimeoutError)))])
    else c
  }

  /** Records that the code awaiting settled request `k` has run. */
  function MarkResumed(c: Component, k: nat): (r: Component)
    requires Valid(c) && k < |c.requests| && !c.requests[k].outcome.Waiting?
    ensures Valid(r) && SettledKept(c, r)
    ensures r.requests == c.requests[k := c.requests[k].(resumed := true)]
    ensures r.(requests := c.requests) == c
  {
    c.(requests := c.requests[k := c.requests[k].(resumed := true)])
  }

  /**
   * `connect` number `n` after its IDENTITY request settled with `outcome`:
   * an ATTESTATION over a non-null challenge, done on `null`, failed on a
   * rejection.
   */
  function ContinueIdentity(c: Component, n: nat, outcome: Outcome, freshId: Uuid): (r: Component)
    requires Valid(c) && c.endpoint.cid.Some? && n < |c.connects| && !outcome.Waiting?
    ensures Valid(r) && SettledKept(c, r)
    ensures r.endpoint == c.endpoint && r.invocations == c.invocations && r.handlers == c.handlers
    ensures |r.connects| == |c.connects|
    ensures forall m :: 0 <= m < |c.connects| && m != n ==> r.connects[m] == c.connects[m]
    ensures r.connects[n] == match outcome
      case Resolved(challenge) => if challenge != Null then AwaitingAttestation else Connected
      case Rejected(e) => ConnectFailed(e)
    ensures |r.requests| >= |c.requests| && r.requests[..|c.requests|] == c.requests
    ensures var attests := outcome.Resolved? && outcome.data != Null;
      && r.outbox == (if attests then c.outbox + [Attestation(freshId, c.endpoint.cid.value, Digest(outcome.data, c.secret))] else c.outbox)
      && r.reqres == (if attests then c.reqres[freshId := |c.requests|] else c.reqres)
  {
    match outcome
    case Resolved(challenge) =>
      if challenge != Null then
        var cid := c.endpoint.cid.value;
        var c1 := Send(c, Attestation(freshId, cid, Digest(challenge, c.secret)));
        WaitForResponse(c1, freshId, AfterAttestation(n)).(connects := c.connects[n := AwaitingAttestation])
      else c.(connects := c.connects[n := Connected])
    case Rejected(e) => c.(connects := c.connects[n := ConnectFailed(e)])
  }

  /** `connect` number `n` after its ATTESTATION request settled with `outcome`. */
  function ContinueAttestation(c: Component, n: nat, outcome: Outcome): (r: Component)
    requires n < |c.connects| && !outcome.Waiting?
    ensures r.connects == c.connects[n := if outcome.Resolved? then Connected else ConnectFailed(outcome.err)]
    ensures r.(connects := c.connects) == c
  {
    if outcome.Resolved? then c.(connects := c.connects[n := Connected])
    else c.(connects := c.connects[n := ConnectFailed(outcome.err)])
  }

  /** Whether the code awaiting request `k` runs now: the request settled and it has not run yet. */
  predicate Runs(c: Component, k: nat) {
    k < |c.requests| && !c.requests[k].outcome.Waiting? && !c.requests[k].resumed
  }

  /** Whether resuming request `k` sends an ATTESTATION: a fulfilled IDENTITY request with a non-null challenge. */
  predicate Attests(c: Component, k: nat) {
    && Runs(c, k) && c.requests[k].resume.AfterIdentity?
    && c.requests[k].outcome.Resolved? && c.requests[k].outcome.data != Null
  }

  /**
   * The code awaiting request `k` resumes after the request settled; it
   * runs at most once. `subscribe`/`expose` register their handler only if
   * the request was fulfilled. After the IDENTITY reply, its `connect` sends
   * an ATTESTATION signed over the challenge exactly when the reply
   * fulfilled with something other than `null`, and is done otherwise; a
   * rejection at either step fails that `connect`. No other `connect`
   * changes state.
   */
  function Resume(c: Component, k: nat, freshId: Uuid): (r: Component)
    requires Valid(c)
    ensures Valid(r)
    ensures SettledKept(c, r)
    ensures r.endpoint == c.endpoint && r.invocations == c.invocations
    ensures (k >= |c.requests| || c.requests[k].outcome.Waiting? || c.requests[k].resumed) ==> r == c
    ensures |r.connects| == |c.connects|
    ensures forall m :: 0 <= m < |c.connects| && r.connects[m] != c.connects[m] ==>
      k < |c.requests| && IsHandshake(c.requests[k].resume) && c.requests[k].resume.conn == m
    ensures forall j :: 0 <= j < |c.requests| && j != k ==> r.requests[j] == c.requests[j]
    ensures r.handlers ==
      if Runs(c, k) && c.requests[k].resume.Activate? && c.requests[k].outcome.Resolved? then
        c.handlers[c.requests[k].resume.handler.name := c.requests[k].resume.handler]
      else c.handlers
    ensures r.outbox ==
      if Attests(c, k) then
        c.outbox + [Attestation(freshId, c.endpoint.cid.value, Digest(c.requests[k].outcome.data, c.secret))]
      else c.outbox
    ensures r.reqres == if Attests(c, k) then c.reqres[freshId := |c.requests|] else c.reqres
  {
    if k >= |c.requests| || c.requests[k].outcome.Waiting? || c.requests[k].resumed then c
    else
      var req := c.requests[k];
      var c1 := MarkResumed(c, k);
      match req.resume
      case ReturnToCaller => c1
      case Activate(h) =>
        if req.outcome.Resolved? then c1.(handlers := c1.handlers[h.name := h]) else c1
      case AfterIdentity(n) => ContinueIdentity(c1, n, req.outcome, freshId)
      case AfterAttestation(n) => ContinueAttestation(c1, n, req.outcome)
  }
}

=== FILE: completion.dfy ===
/**
 * The one-shot completion of a request (the `Completer` around a promise)
 * and the settler that maps a RESPONSE's status to an outcome.
 */
module Completion {
  import opened Values
  import opened Frames

  /** `RembusError(status, reason)`: what a rejected request rejects with. */
  datatype RembusError = RembusError(status: Value, reason: Value)

  /** The rejection a request's timer delivers. */
  const TimeoutError: RembusError := RembusError(Num(StsTimeout), Str("rembus timeout"))

  /** The state of a promise: not yet settled, fulfilled, or rejected. */
  datatype Outcome = Waiting | Resolved(data: Value) | Rejected(err: RembusError)

  /** The statuses `responseSettler` fulfils on: success and challenge. */
  predicate IsSuccessStatus(status: Value) {
    status == Num(StsSuccess) || status == Num(StsChallenge)
  }

  /**
   * `responseSettler`: a RESPONSE whose status is strictly equal to success
   * or challenge fulfils with its data; any other status rejects with a
   * `RembusError` carrying the status and the data.
   */
  function Settle(status: Value, data: Value): (r: Outcome)
    ensures !r.Waiting?
    ensures r.Resolved? <==> IsSuccessStatus(status)
    ensures r.Resolved? ==> r.data == data
    ensures r.Rejected? ==> r.err.status == status && r.err.reason == data
  {
    if status == Num(StsSuccess) then Resolved(data)
    else if status == Num(StsChallenge) then Resolved(data)
    else Rejected(RembusError(status, data))
  }

  /**
   * Resolving or rejecting a promise: only the first settlement takes
   * effect, later ones are ignored.
   */
  function FirstSettlement(current: Outcome, next: Outcome): Outcome {
    if current.Waiting? then next else current
  }
}

=== FILE: endpoint.dfy ===
/**
 * The `Component` constructor's endpoint logic and the `url` getter: a
 * client is built from either a `ws:`/`wss:` URL or a bare identity string.
 */
module Endpoints {
  import opened Wrappers

  /**
   * The fields of a parsed WHATWG URL that the constructor reads, as a URL
   * object reports them: `protocol` keeps its trailing colon and `pathname`
   * its leading slash.
   */
  datatype UrlRecord = UrlRecord(protocol: string, hostname: string, port: string, pathname: string)

  /**
   * Where and as whom a client connects. `protocol` has no colon; `cid` is
   * the component identity, `None` for JavaScript `null`.
   */
  datatype Endpoint = Endpoint(protocol: string, host: string, port: string, cid: Option<string>)

  const DefaultProtocol: string := "ws"
  const DefaultHost: string := "localhost"
  const DefaultPort: string := "8000"
  const InvalidProtocol: string := "invalid protocol"

  /** A WHATWG protocol: the scheme followed by its colon, as every parsed URL reports it. */
  predicate HasSchemeColon(u: UrlRecord) {
    |u.protocol| > 0 && u.protocol[|u.protocol| - 1] == ':'
  }

  /**
   * A path starting with `/`, as a URL with an authority (`ws://host...`)
   * always has; an opaque path such as the `alice` of `user:alice` does not.
   */
  predicate HasRootPath(u: UrlRecord) {
    |u.pathname| > 0 && u.pathname[0] == '/'
  }

  /** `s.slice(0, -1)`. */
  function DropLast(s: string): string {
    if |s| == 0 then s else s[..|s| - 1]
  }

  /** `s.slice(1)`. */
  function DropFirst(s: string): string {
    if |s| == 0 then s else s[1..]
  }

  /**
   * The constructor's choice of endpoint. `parseUrl` stands for
   * `URL.canParse` followed by `new URL`: `None` when the text is not a URL.
   * A `null` argument never parses. A parsed URL whose scheme is neither
   * `ws` nor `wss` is refused with `"invalid protocol"`; text that is not a
   * URL is taken as the identity of a client of `ws://localhost:8000`.
   */
  function NewEndpoint(url: Option<string>, parseUrl: string -> Option<UrlRecord>): (r: Result<Endpoint, string>)
    ensures r.Ok? ==> r.value.protocol in {"ws", "wss"}
    ensures r.Err? ==> r.error == InvalidProtocol
    ensures (url.None? || parseUrl(url.value).None?) ==>
      r == Ok(Endpoint(DefaultProtocol, DefaultHost, DefaultPort, url))
    ensures url.Some? && parseUrl(url.value).Some? && HasSchemeColon(parseUrl(url.value).value) ==>
      var u := parseUrl(url.value).value;
      && (r.Ok? <==> u.protocol in {"ws:", "wss:"})
      && (r.Ok? ==> r.value.protocol + ":" == u.protocol)
      && (r.Ok? ==> r.value.host == u.hostname && r.value.port == u.port)
    ensures url.Some? && parseUrl(url.value).Some? && r.Ok? ==> r.value.cid.Some?
    ensures url.Some? && parseUrl(url.value).Some? && HasRootPath(parseUrl(url.value).value) && r.Ok? ==>
      "/" + r.value.cid.value == parseUrl(url.value).value.pathname
  {
    if url.Some? && parseUrl(url.value).Some? then
      var u := parseUrl(url.value).value;
      var protocol := DropLast(u.protocol);
      SchemeWithoutColon(u.protocol);
      assert HasRootPath(u) ==> u.pathname == "/" + DropFirst(u.pathname);
      if protocol in {"ws", "wss"} then
        Ok(Endpoint(protocol, u.hostname, u.port, Some(DropFirst(u.pathname))))
      else
        Err(InvalidProtocol)
    else
      Ok(Endpoint(DefaultProtocol, DefaultHost, DefaultPort, url))
  }

  /** Dropping a scheme's colon yields `ws` or `wss` exactly for `ws:` and `wss:`. */
  lemma SchemeWithoutColon(p: string)
    ensures |p| > 0 && p[|p| - 1] == ':' ==>
      && DropLast(p) + ":" == p
      && (DropLast(p) in {"ws", "wss"} <==> p in {"ws:", "wss:"})
  {
    assert DropLast("ws:") == "ws" && DropLast("wss:") == "wss";
    assert "ws" + ":" == "ws:" && "wss" + ":" == "wss:";
    if |p| > 0 && p[|p| - 1] == ':' {
      assert DropLast(p) + ":" == p;
    }
  }

  /** The `url` getter: `${protocol}://${host}:${port}`. */
  function Url(e: Endpoint): string {
    e.protocol + "://" + (e.host + ":" + e.port)
  }

  /** The first position of `ch` in `s` at or after `from`. */
  function IndexFrom(s: string, ch: char, from: nat): (r: Option<nat>)
    requires from <= |s|
    ensures r.Some? ==> from <= r.value < |s| && s[r.value] == ch
    ensures r.Some? ==> forall j :: from <= j < r.value ==> s[j] != ch
    ensures r.None? ==> forall j :: from <= j < |s| ==> s[j] != ch
    decreases |s| - from
  {
    if from == |s| then None
    else if s[from] == ch then Some(from)
    else IndexFrom(s, ch, from + 1)
  }

  /** The last position of `ch` in `s[..upto]`. */
  function LastIndexBelow(s: string, ch: char, upto: nat): (r: Option<nat>)
    requires upto <= |s|
    ensures r.Some? ==> r.value < upto && s[r.value] == ch
    ensures r.Some? ==> forall j :: r.value < j < upto ==> s[j] != ch
    ensures r.None? ==> forall j :: 0 <= j < upto ==> s[j] != ch
  {
    if upto == 0 then None
    else if s[upto - 1] == ch then Some(upto - 1)
    else LastIndexBelow(s, ch, upto - 1)
  }

  /** Splits `host:port` at the last colon. */
  function SplitHostPort(rest: string): Option<(string, string)> {
    match LastIndexBelow(rest, ':', |rest|)
    case None => None
    case Some(j) => Some((rest[..j], rest[j + 1..]))
  }

  /**
   * Reads a rendered url back into (protocol, host, port): the protocol
   * ends at the first colon, which must open `://`, and the port starts
   * after the last colon.
   */
  function SplitUrl(s: string): Option<(string, string, string)>
  {
    match IndexFrom(s, ':', 0)
    case None => None
    case Some(i) =>
      if i + 2 < |s| && s[i + 1] == '/' && s[i + 2] == '/' then
        match SplitHostPort(s[i + 3..])
        case None => None
        case Some(hp) => Some((s[..i], hp.0, hp.1))
      else None
  }

  /**
   * The url getter loses nothing: when neither the protocol nor the port
   * contains a colon, the rendered url splits back into the endpoint's
   * protocol, host and port (a host may contain colons, as IPv6 hosts do).
   */
  lemma UrlRoundTrip(e: Endpoint)
    requires forall k :: 0 <= k < |e.protocol| ==> e.protocol[k] != ':'
    requires forall k :: 0 <= k < |e.port| ==> e.port[k] != ':'
    ensures SplitUrl(Url(e)) == Some((e.protocol, e.host, e.port))
  {
    HostPortSplit(e.host, e.port);
    SplitAtScheme(e.protocol, e.host + ":" + e.port, e.host, e.port);
  }

  /** Splitting `p + "://" + rest` finds `p` and `rest` when `p` has no colon. */
  lemma SplitAtScheme(p: string, rest: string, host: string, port: string)
    requires forall k :: 0 <= k < |p| ==> p[k] != ':'
    requires SplitHostPort(rest) == Some((host, port))
    ensures SplitUrl(p + "://" + rest) == Some((p, host, port))
  {
    var s := p + "://" + rest;
    assert IndexFrom(s, ':', 0) == Some(|p|) by {
      forall k | 0 <= k < |p|
        ensures s[k] != ':'
      {
        assert s[k] == p[k];
      }
      FirstColonAt(s, |p|);
    }
    assert s[|p| + 1] == '/' && s[|p| + 2] == '/';
    assert s[|p| + 3..] == rest;
    assert s[..|p|] == p;
  }

  /** `host:port` splits back into host and port when the port has no colon. */
  lemma HostPortSplit(host: string, port: string)
    requires forall k :: 0 <= k < |port| ==> port[k] != ':'
    ensures SplitHostPort(host + ":" + port) == Some((host, port))
  {
    var rest := host + ":" + port;
    assert LastIndexBelow(rest, ':', |rest|) == Some(|host|) by {
      forall k | |host| < k < |rest|
        ensures rest[k] != ':'
      {
        assert rest[k] == port[k - |host| - 1];
      }
      LastColonAt(rest, |host|);
    }
    assert rest[..|host|] == host;
    assert rest[|host| + 1..] == port;
  }

  /** A colon with none before it is the first colon. */
  lemma FirstColonAt(s: string, n: nat)
    requires n < |s| && s[n] == ':'
    requires forall k :: 0 <= k < n ==> s[k] != ':'
    ensures IndexFrom(s, ':', 0) == Some(n)
  {
  }

  /** A colon with none after it is the last colon. */
  lemma LastColonAt(s: string, n: nat)
    requires n < |s| && s[n] == ':'
    requires forall k :: n < k < |s| ==> s[k] != ':'
    ensures LastIndexBelow(s, ':', |s|) == Some(n)
  {
  }

  /**
   * The constructor on the URLs the repository's tests use, given what the
   * WHATWG parser returns for them: `ws://myhost:8000/myc` gives identity
   * `myc`; `ws://myhost:8000`, whose path the parser reports as `/`, gives
   * the empty identity `""` and not `null`; a `zss:` URL is refused.
   */
  lemma UrlExamples(parseUrl: string -> Option<UrlRecord>)
    requires parseUrl("ws://myhost:8000/myc") == Some(UrlRecord("ws:", "myhost", "8000", "/myc"))
    requires parseUrl("ws://myhost:8000") == Some(UrlRecord("ws:", "myhost", "8000", "/"))
    requires parseUrl("zss://myhost:8000/myc") == Some(UrlRecord("zss:", "myhost", "8000", "/myc"))
    ensures NewEndpoint(Some("ws://myhost:8000/myc"), parseUrl) == Ok(Endpoint("ws", "myhost", "8000", Some("myc")))
    ensures NewEndpoint(Some("ws://myhost:8000"), parseUrl) == Ok(Endpoint("ws", "myhost", "8000", Some("")))
    ensures NewEndpoint(Some("zss://myhost:8000/myc"), parseUrl) == Err(InvalidProtocol)
  {
  }

  /**
   * Refusal does not depend on the path: `zss://myhost:8000` (empty path)
   * and `user:alice` (an opaque path, not a bare identity, since it parses)
   * are both refused.
   */
  lemma OtherSchemesRefused(parseUrl: string -> Option<UrlRecord>)
    requires parseUrl("zss://myhost:8000") == Some(UrlRecord("zss:", "myhost", "8000", ""))
    requires parseUrl("user:alice") == Some(UrlRecord("user:", "", "", "alice"))
    ensures NewEndpoint(Some("zss://myhost:8000"), parseUrl) == Err(InvalidProtocol)
    ensures NewEndpoint(Some("user:alice"), parseUrl) == Err(InvalidProtocol)
  {
  }

  /** A bare identity `myc` is a client of `ws://localhost:8000` with that identity. */
  lemma BareIdentityExample(parseUrl: string -> Option<UrlRecord>)
    requires parseUrl("myc").None?
    ensures NewEndpoint(Some("myc"), parseUrl) == Ok(Endpoint("ws", "localhost", "8000", Some("myc")))
    ensures Url(NewEndpoint(Some("myc"), parseUrl).value) == "ws://localhost:8000"
  {
  }
}

=== FILE: frames.dfy ===
/**
 * The wire frames: each is a CBOR array whose first element is a type tag.
 * `Frame` holds the shapes the client builds; `Inbound` is how the client
 * reads what arrives. The inbound RPC is read with its arguments at index 4
 * (the broker inserts a target at index 3), unlike the outbound RPC, which
 * carries them at index 3.
 */
module Frames {
  import opened Wrappers
  import opened Values

  const TypeIdentity: int := 0
  const TypePubSub: int := 1
  const TypeRpc: int := 2
  const TypeSetting: int := 3
  const TypeResponse: int := 4
  const TypeAttestation: int := 11

  const StsSuccess: int := 0x00
  const StsGenericError: int := 0x0A
  const StsChallenge: int := 0x0B
  const StsIdentificationError: int := 0x14
  const StsMethodException: int := 0x28
  const StsMethodNotFound: int := 0x2A
  const StsMethodUnavailable: int := 0x2B
  const StsMethodLoopback: int := 0x2C
  const StsTargetNotFound: int := 0x2D
  const StsTargetDown: int := 0x2E
  const StsTimeout: int := 0x46

  /** The command object of a SETTING frame. */
  datatype SettingCmd = AddInterest | AddImpl | Reactive(status: bool)

  /** The frames the client sends. */
  datatype Frame =
    | Identity(id: CorrelationId, cid: string)
    | PubSub(topic: string, args: seq<Value>)
    | Rpc(id: CorrelationId, topic: string, args: seq<Value>)
    | Setting(id: CorrelationId, name: string, cmd: SettingCmd)
    | Response(id: CorrelationId, status: int, data: Value)
    | Attestation(id: CorrelationId, cid: string, signature: Value)

  function TypeTag(f: Frame): int {
    match f
    case Identity(_, _) => TypeIdentity
    case PubSub(_, _) => TypePubSub
    case Rpc(_, _, _) => TypeRpc
    case Setting(_, _, _) => TypeSetting
    case Response(_, _, _) => TypeResponse
    case Attestation(_, _, _) => TypeAttestation
  }

  /** `{ cmd: 'add_interest' }`, `{ cmd: 'add_impl' }`, `{ cmd: 'reactive', status }`. */
  function CmdObject(cmd: SettingCmd): Value {
    match cmd
    case AddInterest => Obj([("cmd", Str("add_interest"))])
    case AddImpl => Obj([("cmd", Str("add_impl"))])
    case Reactive(status) => Obj([("cmd", Str("reactive")), ("status", Bool(status))])
  }

  function CmdFromObject(v: Value): Option<SettingCmd> {
    if v == Obj([("cmd", Str("add_interest"))]) then Some(AddInterest)
    else if v == Obj([("cmd", Str("add_impl"))]) then Some(AddImpl)
    else if v.Obj? && |v.fields| == 2 && v.fields[0] == ("cmd", Str("reactive"))
         && v.fields[1].0 == "status" && v.fields[1].1.Bool? then
      Some(Reactive(v.fields[1].1.b))
    else None
  }

  /**
   * The array the codec encodes for a frame: the type tag, then the fields
   * in the order the frame builders list them, ids as raw UUID bytes.
   */
  function ToWire(f: Frame): (w: seq<Value>)
    ensures |w| >= 3 && w[0] == Num(TypeTag(f))
    ensures !f.PubSub? ==> w[1] == Bytes(f.id)
    ensures FromWire(w) == Some(f)
  {
    match f
    case Identity(id, cid) => [Num(TypeIdentity), Bytes(id), Str(cid)]
    case PubSub(topic, args) => [Num(TypePubSub), Str(topic), Arr(args)]
    case Rpc(id, topic, args) => [Num(TypeRpc), Bytes(id), Str(topic), Arr(args)]
    case Setting(id, name, cmd) => [Num(TypeSetting), Bytes(id), Str(name), CmdObject(cmd)]
    case Response(id, status, data) => [Num(TypeResponse), Bytes(id), Num(status), data]
    case Attestation(id, cid, signature) => [Num(TypeAttestation), Bytes(id), Str(cid), signature]
  }

  /** Reads an outbound frame back from its array form. */
  function FromWire(w: seq<Value>): Option<Frame> {
    if |w| == 3 && w[0] == Num(TypeIdentity) && w[1].Bytes? && w[2].Str? then
      Some(Identity(w[1].bs, w[2].s))
    else if |w| == 3 && w[0] == Num(TypePubSub) && w[1].Str? && w[2].Arr? then
      Some(PubSub(w[1].s, w[2].items))
    else if |w| == 4 && w[0] == Num(TypeRpc) && w[1].Bytes? && w[2].Str? && w[3].Arr? then
      Some(Rpc(w[1].bs, w[2].s, w[3].items))
    else if |w| == 4 && w[0] == Num(TypeSetting) && w[1].Bytes? && w[2].Str? && CmdFromObject(w[3]).Some? then
      Some(Setting(w[1].bs, w[2].s, CmdFromObject(w[3]).value))
    else if |w| == 4 && w[0] == Num(TypeResponse) && w[1].Bytes? && w[2].Num? then
      Some(Response(w[1].bs, w[2].n, w[3]))
    else if |w| == 4 && w[0] == Num(TypeAttestation) && w[1].Bytes? && w[2].Str? then
      Some(Attestation(w[1].bs, w[2].s, w[3]))
    else None
  }

  /** A decoded inbound message, as the dispatcher reads it. */
  datatype Inbound =
    | InPubSub(topic: Value, args: Value)
    | InResponse(key: Uuid, status: Value, data: Value)
    | InRpc(id: CorrelationId, procedure: Value, args: Value)
    | Ignored

  /** An element `stringify` renders as a byte: a number from 0 to 255. */
  predicate IsByteNum(v: Value) {
    v.Num? && 0 <= v.n < 256
  }

  /**
   * The UUID `stringify` reads from an id: `id[0]` to `id[15]`, by
   * position, whatever the id is (a byte string, an array, or an object
   * with numeric keys). Unless all 16 are numbers from 0 to 255 the result
   * is not a UUID and `stringify` throws (`None`). Anything past the 16th
   * element is never read.
   */
  function Stringify(v: Value): (r: Option<Uuid>)
    ensures r.Some? <==> forall i :: 0 <= i < 16 ==> IsByteNum(Index(v, i))
    ensures r.Some? ==> forall i :: 0 <= i < 16 ==> r.value[i] as int == Index(v, i).n
    ensures v.Bytes? ==> (r.Some? <==> |v.bs| >= 16) && (r.Some? ==> r.value == v.bs[..16])
  {
    if forall i :: 0 <= i < 16 ==> IsByteNum(Index(v, i)) then
      var key: Uuid := seq(16, i requires 0 <= i < 16 => Index(v, i).n as byte);
      assert IsByteNum(Index(v, 15));
      assert v.Bytes? ==> key == v.bs[..16];
      Some(key)
    else None
  }

  /**
   * What `handleInput` reads from a decoded message, through JavaScript
   * indexing, so an array and an object with keys `"0"`, `"1"`, ... are
   * read alike: the tag at 0; PUBSUB topic at 1 and arguments at 2;
   * RESPONSE id at 1 (through `stringify`), status at 2, data at 3; RPC id
   * at 1, method at 2, arguments at 4. Any other tag is ignored. A RESPONSE
   * whose id `stringify` rejects is ignored, and so is an RPC whose id is
   * not a byte string.
   */
  function ReadInbound(payload: Value): (r: Inbound)
    ensures Index(payload, 0) !in {Num(TypePubSub), Num(TypeResponse), Num(TypeRpc)} ==> r == Ignored
    ensures Index(payload, 0) == Num(TypePubSub) ==> r == InPubSub(Index(payload, 1), Index(payload, 2))
    ensures Index(payload, 0) == Num(TypeResponse) ==>
      && (r.InResponse? <==> Stringify(Index(payload, 1)).Some?)
      && (r.InResponse? ==> r == InResponse(Stringify(Index(payload, 1)).value, Index(payload, 2), Index(payload, 3)))
    ensures Index(payload, 0) == Num(TypeRpc) ==>
      && (r.InRpc? <==> Index(payload, 1).Bytes?)
      && (r.InRpc? ==> r == InRpc(Index(payload, 1).bs, Index(payload, 2), Index(payload, 4)))
    ensures forall topic, args :: payload == Arr(ToWire(PubSub(topic, args))) ==>
      r == InPubSub(Str(topic), Arr(args))
    ensures forall id: Uuid, status, data :: payload == Arr(ToWire(Response(id, status, data))) ==>
      r == InResponse(id, Num(status), data)
    ensures forall id, topic, args :: payload == Arr(ToWire(Rpc(id, topic, args))) ==>
      r == InRpc(id, Str(topic), Undefined)
    ensures forall id, name, target, args :: payload == Arr([Num(TypeRpc), Bytes(id), Str(name), target, Arr(args)]) ==>
      r == InRpc(id, Str(name), Arr(args))
  {
    var tag := Index(payload, 0);
    if tag == Num(TypePubSub) then
      InPubSub(Index(payload, 1), Index(payload, 2))
    else if tag == Num(TypeResponse) then
      match Stringify(Index(payload, 1))
      case Some(key) => InResponse(key, Index(payload, 2), Index(payload, 3))
      case None => Ignored
    else if tag == Num(TypeRpc) then
      if Index(payload, 1).Bytes? then InRpc(Index(payload, 1).bs, Index(payload, 2), Index(payload, 4)) else Ignored
    else Ignored
  }

  /** A RESPONSE carrying a client's own id as its 16 bytes is read with that id. */
  lemma ReadOwnResponse(id: Uuid, status: Value, data: Value)
    ensures ReadInbound(Arr([Num(TypeResponse), Bytes(id), status, data])) == InResponse(id, status, data)
  {
    assert id[..16] == id;
  }
}

=== FILE: hex.dfy ===
/**
 * `arrayToHex`: the debugging formatter that renders a byte array as
 * space-separated `0x`-prefixed two-digit lowercase hex.
 */
module Hex {
  import opened Wrappers

  const Digits: string := "0123456789abcdef"

  predicate IsHexDigit(ch: char) {
    ('0' <= ch <= '9') || ('a' <= ch <= 'f')
  }

  /** The number a lowercase hex digit stands for (0 for any other character). */
  function DigitValue(ch: char): (d: nat)
    ensures d < 16
    ensures IsHexDigit(ch) ==> Digits[d] == ch
  {
    if '0' <= ch <= '9' then (ch - '0') as nat
    else if 'a' <= ch <= 'f' then (ch - 'a') as nat + 10
    else 0
  }

  lemma DigitsAreHex(d: nat)
    requires d < 16
    ensures IsHexDigit(Digits[d])
    ensures DigitValue(Digits[d]) == d
  {
  }

  /** Number.prototype.toString(16) on a non-negative integer. */
  function ToBase16(n: nat): (r: string)
    ensures 1 <= |r|
    ensures n < 16 <==> |r| == 1
    decreases n
  {
    if n < 16 then [Digits[n]] else ToBase16(n / 16) + [Digits[n % 16]]
  }

  /** Reads a string of lowercase hex digits as a number, most significant first. */
  function FromBase16(s: string): nat
    decreases |s|
  {
    if |s| == 0 then 0 else FromBase16(s[..|s| - 1]) * 16 + DigitValue(s[|s| - 1])
  }

  /** toString(16) is the base-16 numeral of its argument. */
  lemma {:induction false} ToBase16RoundTrip(n: nat)
    ensures FromBase16(ToBase16(n)) == n
    decreases n
  {
    var r := ToBase16(n);
    DigitsAreHex(n % 16);
    if n >= 16 {
      ToBase16RoundTrip(n / 16);
      assert r[..|r| - 1] == ToBase16(n / 16);
    }
  }

  /** `s.slice(-2)`: the last two characters, or all of a shorter string. */
  function LastTwo(s: string): (r: string)
    ensures |r| == if |s| < 2 then |s| else 2
    ensures r == s[|s| - |r|..]
  {
    if |s| <= 2 then s else s[|s| - 2..]
  }

  lemma PaddedSmall(v: nat)
    requires v < 16
    ensures LastTwo("0" + ToBase16(v)) == [Digits[v / 16], Digits[v % 16]]
  {
    assert ToBase16(v) == [Digits[v]];
    assert v / 16 == 0 && v % 16 == v;
    assert "0" + ToBase16(v) == [Digits[0], Digits[v]];
  }

  lemma PaddedLarge(v: nat)
    requires 16 <= v < 256
    ensures LastTwo("0" + ToBase16(v)) == [Digits[v / 16], Digits[v % 16]]
  {
    var q := v / 16;
    assert q < 16;
    assert ToBase16(q) == [Digits[q]];
    assert ToBase16(v) == [Digits[q], Digits[v % 16]];
    var t := "0" + ToBase16(v);
    assert |t| == 3;
    assert t[1..] == ToBase16(v);
  }

  lemma PaddedTwoDigits(v: nat)
    requires v < 256
    ensures LastTwo("0" + ToBase16(v)) == [Digits[v / 16], Digits[v % 16]]
  {
    if v < 16 { PaddedSmall(v); } else { PaddedLarge(v); }
  }

  /** The rendering of one element: `'0x' + ('0' + (b & 0xFF).toString(16)).slice(-2)`. */
  function ByteToHex(b: int): (r: string)
    ensures |r| == 4
    ensures r[0] == '0' && r[1] == 'x'
    ensures IsHexDigit(r[2]) && IsHexDigit(r[3])
    ensures DigitValue(r[2]) * 16 + DigitValue(r[3]) == b % 256
  {
    var v := b % 256;
    DigitsAreHex(v / 16);
    DigitsAreHex(v % 16);
    PaddedTwoDigits(v);
    "0x" + LastTwo("0" + ToBase16(v))
  }

  /** `Array.from(bytes, ByteToHex)`. */
  function HexParts(bytes: seq<int>): (r: seq<string>)
    ensures |r| == |bytes|
    ensures forall i :: 0 <= i < |r| ==> r[i] == ByteToHex(bytes[i])
  {
    seq(|bytes|, i requires 0 <= i < |bytes| => ByteToHex(bytes[i]))
  }

  /** `Array.prototype.join(sep)`. */
  function Join(parts: seq<string>, sep: string): string
  {
    if |parts| == 0 then ""
    else if |parts| == 1 then parts[0]
    else parts[0] + sep + Join(parts[1..], sep)
  }

  /** Every element of `bytes` reduced by `& 0xFF`, i.e. modulo 256. */
  function Low8(bytes: seq<int>): (r: seq<int>)
    ensures |r| == |bytes|
    ensures forall i :: 0 <= i < |r| ==> r[i] == bytes[i] % 256
  {
    seq(|bytes|, i requires 0 <= i < |bytes| => bytes[i] % 256)
  }

  /** `arrayToHex`. Elements are integers; `& 0xFF` is taken modulo 256. */
  function ArrayToHex(bytes: seq<int>): (r: string)
    ensures |r| == if |bytes| == 0 then 0 else 5 * |bytes| - 1
  {
    JoinLength(HexParts(bytes));
    Join(HexParts(bytes), " ")
  }

  lemma {:induction false} JoinLength(parts: seq<string>)
    requires forall i :: 0 <= i < |parts| ==> |parts[i]| == 4
    ensures |Join(parts, " ")| == if |parts| == 0 then 0 else 5 * |parts| - 1
    decreases |parts|
  {
    if |parts| > 1 {
      JoinLength(parts[1..]);
    }
  }

  /** Splitting the rendering of a non-singleton array after its first element. */
  lemma ArrayToHexCons(bytes: seq<int>)
    requires |bytes| >= 2
    ensures ArrayToHex(bytes) == ByteToHex(bytes[0]) + " " + ArrayToHex(bytes[1..])
  {
    assert HexParts(bytes)[1..] == HexParts(bytes[1..]);
  }

  /** The number one `0xHH` group stands for, if `s` starts with one. */
  function GroupValue(s: string): (r: Option<int>)
    ensures r.Some? ==> |s| >= 4
  {
    if |s| < 4 || s[0] != '0' || s[1] != 'x' || !IsHexDigit(s[2]) || !IsHexDigit(s[3]) then None
    else Some(DigitValue(s[2]) * 16 + DigitValue(s[3]))
  }

  /**
   * The inverse of `ArrayToHex`: accepts exactly a space-separated list of
   * `0x` followed by two lowercase hex digits, and returns the numbers.
   */
  function DecodeHex(s: string): Option<seq<int>>
    decreases |s|
  {
    if |s| == 0 then Some([])
    else match GroupValue(s)
      case None => None
      case Some(v) =>
        if |s| == 4 then Some([v])
        else if |s| == 5 || s[4] != ' ' then None
        else
          match DecodeHex(s[5..])
          case None => None
          case Some(rest) => Some([v] + rest)
  }

  /** Only the first four characters decide the leading group. */
  lemma GroupPrefix(h: string, t: string)
    requires |h| >= 4
    ensures GroupValue(h + t) == GroupValue(h)
  {
    var s := h + t;
    assert s[0] == h[0] && s[1] == h[1] && s[2] == h[2] && s[3] == h[3];
  }

  lemma GroupOfByte(b: int, t: string)
    ensures GroupValue(ByteToHex(b) + t) == Some(b % 256)
  {
    GroupPrefix(ByteToHex(b), t);
  }

  /** One rendered element reads back as its low eight bits. */
  lemma DecodeOne(b: int)
    ensures DecodeHex(ByteToHex(b)) == Some([b % 256])
  {
    GroupOfByte(b, "");
    assert ByteToHex(b) + "" == ByteToHex(b);
  }

  /** One unfolding of `DecodeHex` past a group and its separating space. */
  lemma DecodeStep(s: string, t: string, v: int)
    requires |s| > 5 && GroupValue(s) == Some(v) && s[4] == ' ' && s[5..] == t
    ensures DecodeHex(s) ==
      match DecodeHex(t)
      case None => None
      case Some(rest) => Some([v] + rest)
  {
  }

  /** A rendered element followed by a space: the tail starts at index 5. */
  lemma ConsLayout(b: int, t: string)
    ensures var s := ByteToHex(b) + " " + t;
      |s| >= 5 && s[4] == ' ' && s[5..] == t
  {
    var h := ByteToHex(b);
    assert |h| == 4;
    var s := h + " " + t;
    assert s[4] == ' ';
    assert s[5..] == t;
  }

  /** A rendered element followed by anything: the leading group reads back. */
  lemma ConsShape(b: int, t: string)
    ensures var s := ByteToHex(b) + " " + t;
      |s| >= 5 && s[4] == ' ' && s[5..] == t && GroupValue(s) == Some(b % 256)
  {
    ConsLayout(b, t);
    GroupOfByte(b, " ");
    GroupPrefix(ByteToHex(b) + " ", t);
  }

  /** A rendered element, a space and a non-empty tail read back element by element. */
  lemma DecodeCons(b: int, t: string)
    requires |t| > 0
    ensures DecodeHex(ByteToHex(b) + " " + t) ==
      match DecodeHex(t)
      case None => None
      case Some(rest) => Some([b % 256] + rest)
  {
    ConsShape(b, t);
    DecodeStep(ByteToHex(b) + " " + t, t, b % 256);
  }

  /** Reading back the rendering recovers every element's low eight bits. */
  lemma {:induction false} ArrayToHexRoundTrip(bytes: seq<int>)
    ensures DecodeHex(ArrayToHex(bytes)) == Some(Low8(bytes))
    decreases |bytes|
  {
    if |bytes| == 1 {
      assert ArrayToHex(bytes) == ByteToHex(bytes[0]);
      DecodeOne(bytes[0]);
      assert Low8(bytes) == [bytes[0] % 256];
    } else if |bytes| >= 2 {
      ArrayToHexCons(bytes);
      DecodeCons(bytes[0], ArrayToHex(bytes[1..]));
      ArrayToHexRoundTrip(bytes[1..]);
      assert Low8(bytes) == [bytes[0] % 256] + Low8(bytes[1..]);
    }
  }
}

=== FILE: properties.dfy ===
/**
 * Properties that relate several steps of a client: request/response
 * correlation, timeouts followed by late replies, the connect handshake,
 * and handler activation gated on the broker's acknowledgement.
 */
module Properties {
  import opened Wrappers
  import opened Values
  import opened Endpoints
  import opened Frames
  import opened Completion
  import opened Client

  /** A RESPONSE whose id is not outstanding (late, duplicate or foreign) changes nothing. */
  lemma UnknownResponseIgnored(c: Component, id: Uuid, status: Value, data: Value)
    requires Valid(c)
    requires id !in c.reqres
    ensures HandleInput(c, ResponsePayload(id, status, data)) == c
  {
    ResponseDispatch(c, id, status, data);
  }

  /** An inbound RESPONSE frame is dispatched to the pending-request table. */
  lemma ResponseDispatch(c: Component, id: Uuid, status: Value, data: Value)
    requires Valid(c)
    ensures HandleInput(c, ResponsePayload(id, status, data)) == OnResponse(c, id, status, data)
  {
    ReadOwnResponse(id, status, data);
  }

  /** An rpc call is settled by the matching RESPONSE, through the settler. */
  lemma RpcSettledByResponse(c: Component, id: Uuid, topic: string, args: seq<Value>, status: Value, data: Value)
    requires Valid(c)
    ensures var c1 := CallRpc(c, id, topic, args);
            var c2 := HandleInput(c1, ResponsePayload(id, status, data));
            && c2.requests[|c.requests|].outcome == Settle(status, data)
            && id !in c2.reqres
            && c2.outbox == c.outbox + [Frame.Rpc(id, topic, args)]
  {
    ResponseDispatch(CallRpc(c, id, topic, args), id, status, data);
  }

  /** Replies to two distinct outstanding requests settle them the same way in either order. */
  lemma ResponsesCommute(c: Component, id1: Uuid, id2: Uuid, s1: Value, d1: Value, s2: Value, d2: Value)
    requires Valid(c)
    requires id1 in c.reqres && id2 in c.reqres && c.reqres[id1] != c.reqres[id2]
    ensures OnResponse(OnResponse(c, id1, s1, d1), id2, s2, d2) == OnResponse(OnResponse(c, id2, s2, d2), id1, s1, d1)
  {
  }

  /**
   * Two outstanding rpc calls with distinct ids each settle with their own
   * reply, whichever reply arrives first.
   */
  lemma ConcurrentRpcIsolation(c: Component, id1: Uuid, id2: Uuid, t1: string, t2: string,
                               a1: seq<Value>, a2: seq<Value>, s1: Value, d1: Value, s2: Value, d2: Value)
    requires Valid(c)
    requires id1 != id2
    ensures var k1 := |c.requests|;
            var c2 := CallRpc(CallRpc(c, id1, t1, a1), id2, t2, a2);
            var inOrder := HandleInput(HandleInput(c2, ResponsePayload(id1, s1, d1)), ResponsePayload(id2, s2, d2));
            var reversed := HandleInput(HandleInput(c2, ResponsePayload(id2, s2, d2)), ResponsePayload(id1, s1, d1));
            && inOrder == reversed
            && inOrder.requests[k1].outcome == Settle(s1, d1)
            && inOrder.requests[k1 + 1].outcome == Settle(s2, d2)
  {
    var k1 := |c.requests|;
    var c2 := CallRpc(CallRpc(c, id1, t1, a1), id2, t2, a2);
    assert c2.reqres[id1] == k1 && c2.reqres[id2] == k1 + 1;
    assert c2.requests[k1].outcome.Waiting? && c2.requests[k1 + 1].outcome.Waiting?;
    ResponseDispatch(c2, id1, s1, d1);
    ResponseDispatch(c2, id2, s2, d2);
    var x := OnResponse(c2, id1, s1, d1);
    var y := OnResponse(c2, id2, s2, d2);
    ResponseDispatch(x, id2, s2, d2);
    ResponseDispatch(y, id1, s1, d1);
    ResponsesCommute(c2, id1, id2, s1, d1, s2, d2);
    assert x.reqres[id2] == k1 + 1 && x.requests[k1 + 1] == c2.requests[k1 + 1];
  }

  /**
   * A timed-out request rejects with status 0x46 and keeps its table entry;
   * a RESPONSE arriving afterwards removes the entry but the request stays
   * rejected with the timeout.
   */
  lemma TimeoutThenLateResponse(c: Component, id: Uuid, topic: string, args: seq<Value>, status: Value, data: Value)
    requires Valid(c)
    ensures var k := |c.requests|;
            var c1 := CallRpc(c, id, topic, args);
            var c2 := TimerFires(c1, k);
            var c3 := HandleInput(c2, ResponsePayload(id, status, data));
            && c2.requests[k].outcome == Rejected(TimeoutError)
            && id in c2.reqres
            && id !in c3.reqres
            && c3.requests[k].outcome == Rejected(TimeoutError)
            && c3.outbox == c1.outbox
  {
    ResponseDispatch(TimerFires(CallRpc(c, id, topic, args), |c.requests|), id, status, data);
  }

  /** After the matching RESPONSE the request's timer can no longer fire. */
  lemma ResponseClearsTimer(c: Component, id: Uuid, topic: string, args: seq<Value>, status: Value, data: Value)
    requires Valid(c)
    ensures var k := |c.requests|;
            var c2 := HandleInput(CallRpc(c, id, topic, args), ResponsePayload(id, status, data));
            TimerFires(c2, k) == c2
  {
    ResponseDispatch(CallRpc(c, id, topic, args), id, status, data);
  }

  /** The continuation of an awaiting operation runs at most once. */
  lemma ResumeRunsOnce(c: Component, k: nat, a: Uuid, b: Uuid)
    requires Valid(c)
    ensures Resume(Resume(c, k, a), k, b) == Resume(c, k, a)
  {
  }

  /**
   * `subscribe` registers its handler only once the broker acknowledges:
   * nothing is registered while the request is outstanding; a fulfilling
   * RESPONSE sets (or overwrites) the handler under its name; a rejecting
   * one leaves the handlers as they were. Exactly one SETTING frame is sent.
   */
  lemma SubscribeActivatesOnAck(c: Component, id: Uuid, h: Handler, status: Value, data: Value, nextId: Uuid)
    requires Valid(c)
    ensures var k := |c.requests|;
            var c1 := Subscribe(c, id, h);
            var c2 := HandleInput(c1, ResponsePayload(id, status, data));
            var c3 := Resume(c2, k, nextId);
            && c1.handlers == c.handlers
            && c2.handlers == c.handlers
            && c3.handlers == (if IsSuccessStatus(status) then c.handlers[h.name := h] else c.handlers)
            && c3.outbox == c.outbox + [Setting(id, h.name, AddInterest)]
  {
    ResponseDispatch(Subscribe(c, id, h), id, status, data);
  }

  /** `expose` behaves as `subscribe`, with the `add_impl` command. */
  lemma ExposeActivatesOnAck(c: Component, id: Uuid, h: Handler, status: Value, data: Value, nextId: Uuid)
    requires Valid(c)
    ensures var k := |c.requests|;
            var c3 := Resume(HandleInput(Expose(c, id, h), ResponsePayload(id, status, data)), k, nextId);
            && c3.handlers == (if IsSuccessStatus(status) then c.handlers[h.name := h] else c.handlers)
            && c3.outbox == c.outbox + [Setting(id, h.name, AddImpl)]
  {
    ResponseDispatch(Expose(c, id, h), id, status, data);
  }

  /** A subscription whose acknowledgement times out registers nothing. */
  lemma SubscribeTimeoutRegistersNothing(c: Component, id: Uuid, h: Handler, nextId: Uuid)
    requires Valid(c)
    ensures var k := |c.requests|;
            Resume(TimerFires(Subscribe(c, id, h), k), k, nextId).handlers == c.handlers
  {
  }

  /**
   * The first half of the handshake of a client with an identity, for its
   * connect number `n`: exactly one IDENTITY is sent; an ATTESTATION over
   * the challenge follows if and only if the reply fulfilled with a payload
   * other than `null`; a rejecting reply fails this `connect` with the
   * broker's status and reason. Earlier connects keep their state.
   */
  lemma IdentityStep(c: Component, id: Uuid, status: Value, data: Value, nextId: Uuid)
    requires Valid(c)
    requires c.endpoint.cid.Some?
    ensures var cid := c.endpoint.cid.value;
            var k := |c.requests|;
            var n := |c.connects|;
            var c1 := Connect(c, Opened, id);
            var c3 := Resume(HandleInput(c1, ResponsePayload(id, status, data)), k, nextId);
            var attests := IsSuccessStatus(status) && data != Null;
            && c1.outbox == c.outbox + [Identity(id, cid)]
            && c1.connects == c.connects + [AwaitingIdentity]
            && |c3.connects| == n + 1 && c3.connects[..n] == c.connects
            && c3.outbox == c1.outbox + (if attests then [Attestation(nextId, cid, Digest(data, c.secret))] else [])
            && (attests ==> c3.connects[n] == AwaitingAttestation && nextId in c3.reqres && c3.reqres[nextId] == k + 1
                            && c3.requests[k + 1] == Request(Waiting, true, AfterAttestation(n), false))
            && (IsSuccessStatus(status) && data == Null ==> c3.connects[n] == Connected)
            && (!IsSuccessStatus(status) ==> c3.connects[n] == ConnectFailed(RembusError(status, data)))
  {
    var k := |c.requests|;
    var n := |c.connects|;
    var c1 := Connect(c, Opened, id);
    ResponseDispatch(c1, id, status, data);
    var c2 := HandleInput(c1, ResponsePayload(id, status, data));
    assert c2.requests[k] == Request(Settle(status, data), false, AfterIdentity(n), false);
    assert c2.connects == c1.connects && c2.outbox == c1.outbox && c2.endpoint == c.endpoint;
    IdentityResumed(c2, k, n, Settle(status, data), nextId);
  }

  /** Resuming the settled IDENTITY request `k` of connect number `n`. */
  lemma IdentityResumed(c: Component, k: nat, n: nat, outcome: Outcome, nextId: Uuid)
    requires Valid(c) && c.endpoint.cid.Some? && k == |c.requests| - 1 && n == |c.connects| - 1
    requires c.requests[k] == Request(outcome, false, AfterIdentity(n), false) && !outcome.Waiting?
    ensures var c3 := Resume(c, k, nextId);
            var attests := outcome.Resolved? && outcome.data != Null;
            && |c3.connects| == n + 1 && c3.connects[..n] == c.connects[..n]
            && c3.outbox == c.outbox + (if attests then [Attestation(nextId, c.endpoint.cid.value, Digest(outcome.data, c.secret))] else [])
            && (attests ==> c3.connects[n] == AwaitingAttestation && nextId in c3.reqres && c3.reqres[nextId] == k + 1
                            && c3.requests[k + 1] == Request(Waiting, true, AfterAttestation(n), false))
            && (outcome.Resolved? && outcome.data == Null ==> c3.connects[n] == Connected)
            && (outcome.Rejected? ==> c3.connects[n] == ConnectFailed(outcome.err))
  {
  }

  /**
   * The second half of the handshake of connect number `n`: once the
   * ATTESTATION reply arrives, that `connect` is done if it fulfilled and
   * fails with the broker's status and reason otherwise. Nothing more is
   * sent, and no other connect changes state.
   */
  lemma AttestationStep(c: Component, id: Uuid, n: nat, status: Value, data: Value, unused: Uuid)
    requires Valid(c)
    requires id in c.reqres && c.requests[c.reqres[id]] == Request(Waiting, true, AfterAttestation(n), false)
    ensures var c2 := Resume(HandleInput(c, ResponsePayload(id, status, data)), c.reqres[id], unused);
            && c2.outbox == c.outbox
            && c2.connects == c.connects[n := if IsSuccessStatus(status) then Connected else ConnectFailed(RembusError(status, data))]
  {
    ResponseDispatch(c, id, status, data);
  }

  /**
   * Two connects in flight keep separate results: when the second one's
   * IDENTITY is rejected, it stays failed even after the first one's reply
   * arrives and its handshake goes on.
   */
  lemma ConnectsKeepOwnOutcome(c: Component, id1: Uuid, id2: Uuid, s1: Value, d1: Value, s2: Value, d2: Value, a: Uuid, b: Uuid)
    requires Valid(c)
    requires c.endpoint.cid.Some? && id1 != id2 && !IsSuccessStatus(s2)
    ensures var k := |c.requests|;
            var n := |c.connects|;
            var c2 := Connect(Connect(c, Opened, id1), Opened, id2);
            var c3 := Resume(HandleInput(c2, ResponsePayload(id2, s2, d2)), k + 1, a);
            var c4 := Resume(HandleInput(c3, ResponsePayload(id1, s1, d1)), k, b);
            && c3.connects[n + 1] == ConnectFailed(RembusError(s2, d2))
            && c4.connects[n + 1] == ConnectFailed(RembusError(s2, d2))
  {
    SecondConnectFails(c, id1, id2, s2, d2, a);
    var c2 := Connect(Connect(c, Opened, id1), Opened, id2);
    var c3 := Resume(HandleInput(c2, ResponsePayload(id2, s2, d2)), |c.requests| + 1, a);
    OtherConnectUntouched(c3, id1, |c.requests|, |c.connects|, |c.connects| + 1, s1, d1, b);
  }

  /** The first stage of `ConnectsKeepOwnOutcome`: the second connect fails, the first still waits. */
  lemma SecondConnectFails(c: Component, id1: Uuid, id2: Uuid, s2: Value, d2: Value, a: Uuid)
    requires Valid(c)
    requires c.endpoint.cid.Some? && id1 != id2 && !IsSuccessStatus(s2)
    ensures var k := |c.requests|;
            var n := |c.connects|;
            var c2 := Connect(Connect(c, Opened, id1), Opened, id2);
            var c3 := Resume(HandleInput(c2, ResponsePayload(id2, s2, d2)), k + 1, a);
            && Valid(c3) && |c3.connects| == n + 2
            && c3.connects[n + 1] == ConnectFailed(RembusError(s2, d2))
            && id1 in c3.reqres && c3.reqres[id1] == k && c3.requests[k].resume == AfterIdentity(n)
  {
    var k := |c.requests|;
    var n := |c.connects|;
    var c2 := Connect(Connect(c, Opened, id1), Opened, id2);
    assert c2.reqres[id1] == k && c2.reqres[id2] == k + 1;
    assert c2.requests[k].resume == AfterIdentity(n);
    assert c2.requests[k + 1] == Request(Waiting, true, AfterIdentity(n + 1), false);
    RejectedIdentityResumed(c2, id2, k + 1, n + 1, s2, d2, a, id1, k);
  }

  /** A rejected IDENTITY reply fails its own connect and leaves another pending request registered. */
  lemma RejectedIdentityResumed(c: Component, id: Uuid, k: nat, n: nat, status: Value, data: Value, a: Uuid, other: Uuid, j: nat)
    requires Valid(c) && !IsSuccessStatus(status) && n < |c.connects|
    requires id in c.reqres && c.reqres[id] == k && c.requests[k] == Request(Waiting, true, AfterIdentity(n), false)
    requires other in c.reqres && other != id && c.reqres[other] == j && j < |c.requests|
    ensures var c3 := Resume(HandleInput(c, ResponsePayload(id, status, data)), k, a);
            && Valid(c3) && |c3.connects| == |c.connects|
            && c3.connects[n] == ConnectFailed(RembusError(status, data))
            && other in c3.reqres && c3.reqres[other] == j && c3.requests[j].resume == c.requests[j].resume
  {
    ResponseDispatch(c, id, status, data);
  }

  /** Resuming one connect's IDENTITY request leaves every other connect as it was. */
  lemma OtherConnectUntouched(c: Component, id: Uuid, k: nat, n: nat, m: nat, status: Value, data: Value, b: Uuid)
    requires Valid(c)
    requires id in c.reqres && c.reqres[id] == k && c.requests[k].resume == AfterIdentity(n)
    requires m < |c.connects| && m != n
    ensures Resume(HandleInput(c, ResponsePayload(id, status, data)), k, b).connects[m] == c.connects[m]
  {
    ResponseDispatch(c, id, status, data);
  }

  /**
   * A RESPONSE's id is read by position through `stringify`: a byte string
   * longer than 16 bytes matches on its first 16, and an array of the 16
   * numbers matches as the byte string does.
   */
  lemma ResponseIdByPosition(c: Component, id: Uuid, extra: seq<byte>, status: Value, data: Value)
    requires Valid(c)
    ensures HandleInput(c, Arr([Num(TypeResponse), Bytes(id + extra), status, data])) == OnResponse(c, id, status, data)
    ensures HandleInput(c, Arr([Num(TypeResponse), Arr(seq(16, i requires 0 <= i < 16 => Num(id[i] as int))), status, data]))
            == OnResponse(c, id, status, data)
  {
    assert (id + extra)[..16] == id;
    var arr := seq(16, i requires 0 <= i < 16 => Num(id[i] as int));
    assert Stringify(Arr(arr)) == Some(id) by {
      assert forall i :: 0 <= i < 16 ==> IsByteNum(arr[i]);
      var v := Stringify(Arr(arr)).value;
      assert forall i :: 0 <= i < 16 ==> v[i] == id[i];
      assert v == id;
    }
  }

  /**
   * A decoded CBOR map is indexed by its numeric keys just as an array is:
   * `{0: 1, 1: topic, 2: args}` is an inbound PUBSUB.
   */
  lemma MapPayloadReadByKey(c: Component, topic: string, args: seq<Value>)
    requires Valid(c)
    ensures HandleInput(c, Obj([("0", Num(TypePubSub)), ("1", Str(topic)), ("2", Arr(args))]))
            == OnPubSub(c, Str(topic), Arr(args))
  {
    var payload := Obj([("0", Num(TypePubSub)), ("1", Str(topic)), ("2", Arr(args))]);
    assert ReadInbound(payload) == InPubSub(Str(topic), Arr(args)) by {
      assert DecimalKey(0) == "0" && DecimalKey(1) == "1" && DecimalKey(2) == "2";
      var f := payload.fields;
      assert f[..2][..1] == [f[0]];
      assert Field(f[..2][..1], "0") == Num(TypePubSub);
      assert Field(f[..2], "0") == Num(TypePubSub);
      assert Index(payload, 0) == Num(TypePubSub);
      assert Field(f[..2], "1") == Str(topic);
      assert Index(payload, 1) == Str(topic);
      assert Index(payload, 2) == Arr(args);
    }
  }

  /** An inbound PUBSUB never sends a frame and never changes the registry or the requests. */
  lemma PubSubNeverReplies(c: Component, topic: Value, args: Value)
    requires Valid(c)
    ensures var r := HandleInput(c, Arr([Num(TypePubSub), topic, args]));
            r.(invocations := c.invocations) == c
  {
  }

  /**
   * An inbound RPC for an exposed method sends exactly one success RESPONSE
   * echoing the request id and carrying the handler's result; for any other
   * method nothing changes.
   */
  lemma RpcAnswersExactlyOnce(c: Component, id: CorrelationId, name: string, target: Value, args: seq<Value>)
    requires Valid(c)
    ensures var r := HandleInput(c, Arr([Num(TypeRpc), Bytes(id), Str(name), target, Arr(args)]));
            && (name in c.handlers ==> r.outbox == c.outbox + [Response(id, StsSuccess, c.handlers[name].body(args))])
            && (name !in c.handlers ==> r == c)
  {
  }
}

=== FILE: traces.dfy ===
/**
 * Every event a client sees, one step function over them, and runs of
 * arbitrary event sequences: settlement of a request is final across any
 * interleaving of calls, inbound messages, timers and resumptions.
 */
module Traces {
  import opened Values
  import opened Frames
  import opened Completion
  import opened Client

  datatype Event =
    | RpcCalled(id: Uuid, topic: string, args: seq<Value>)
    | Published(topic: string, args: seq<Value>)
    | ConnectCalled(transport: Transport, id: Uuid)
    | SubscribeCalled(id: Uuid, handler: Handler)
    | ExposeCalled(id: Uuid, handler: Handler)
    | ReactiveCalled(id: Uuid)
    | UnsubscribeCalled(ref: TopicRef)
    | Received(payload: Value)
    | TimerFired(request: nat)
    | Resumed(request: nat, freshId: Uuid)

  function Step(c: Component, e: Event): (r: Component)
    requires Valid(c)
    ensures Valid(r)
    ensures SettledKept(c, r)
    ensures r.endpoint == c.endpoint
  {
    match e
    case RpcCalled(id, topic, args) => CallRpc(c, id, topic, args)
    case Published(topic, args) => Publish(c, topic, args)
    case ConnectCalled(transport, id) => Connect(c, transport, id)
    case SubscribeCalled(id, h) => Subscribe(c, id, h)
    case ExposeCalled(id, h) => Expose(c, id, h)
    case ReactiveCalled(id) => EnableReactive(c, id)
    case UnsubscribeCalled(t) => Unsubscribe(c, t)
    case Received(payload) => HandleInput(c, payload)
    case TimerFired(k) => TimerFires(c, k)
    case Resumed(k, freshId) => Resume(c, k, freshId)
  }

  /** The client after the events `es`, in order. */
  function Run(c: Component, es: seq<Event>): (r: Component)
    requires Valid(c)
    ensures Valid(r)
    ensures r.endpoint == c.endpoint
    decreases |es|
  {
    if |es| == 0 then c else Run(Step(c, es[0]), es[1..])
  }

  lemma SettledKeptTransitive(a: Component, b: Component, d: Component)
    requires SettledKept(a, b) && SettledKept(b, d)
    ensures SettledKept(a, d)
  {
  }

  /**
   * First settlement wins: once a request has an outcome, no sequence of
   * events (a late RESPONSE, its timer, an id reused by a later call)
   * changes it, and no request is ever dropped from the record.
   */
  lemma {:induction false} RunKeepsSettled(c: Component, es: seq<Event>)
    requires Valid(c)
    ensures SettledKept(c, Run(c, es))
    decreases |es|
  {
    if |es| > 0 {
      var c1 := Step(c, es[0]);
      RunKeepsSettled(c1, es[1..]);
      SettledKeptTransitive(c, c1, Run(c1, es[1..]));
    }
  }

  /**
   * Where the registry changes: only `unsubscribe` removes a handler, and
   * only the resumption of a fulfilled `subscribe`/`expose` adds one.
   */
  lemma HandlersChangeOnlyByAckOrUnsubscribe(c: Component, e: Event)
    requires Valid(c)
    ensures var r := Step(c, e);
      r.handlers != c.handlers ==>
        || e.UnsubscribeCalled?
        || (e.Resumed? && Runs(c, e.request) && c.requests[e.request].resume.Activate?
            && c.requests[e.request].outcome.Resolved?
            && r.handlers == c.handlers[c.requests[e.request].resume.handler.name := c.requests[e.request].resume.handler])
  {
  }

  /** Only an IDENTITY continuation sends from a resumption, and it sends one ATTESTATION. */
  lemma ResumeSendsOnlyAttestation(c: Component, k: nat, freshId: Uuid)
    requires Valid(c)
    ensures var r := Step(c, Resumed(k, freshId));
      r.outbox != c.outbox ==>
        && Attests(c, k)
        && r.outbox == c.outbox + [Attestation(freshId, c.endpoint.cid.value, Digest(c.requests[k].outcome.data, c.secret))]
  {
  }
}

=== FILE: values.dfy ===
/**
 * The values carried inside frames, as the CBOR codec hands them to the
 * client. The codec itself is not modelled: a frame is its decoded value tree.
 */
module Values {
  import opened Wrappers

  newtype byte = x: int | 0 <= x < 256

  /**
   * A correlation id as raw bytes: what a frame carries. The client's own
   * ids are `Uuid`s; an inbound RPC may carry any byte string.
   */
  type CorrelationId = seq<byte>

  /** The 16 raw bytes of a v4 UUID, as `parse(v4())` gives them. */
  type Uuid = s: seq<byte> | |s| == 16 witness [0, 0, 0, 0, 0, 0, 0, 0, 0, 0, 0, 0, 0, 0, 0, 0]

  /**
   * A decoded value. `Undefined` is JavaScript's `undefined`, which a read
   * past the end of an array yields. `Digest` stands for the SHA-256 digest
   * of the CBOR encoding of `[challenge, secret]`: the hash itself is not
   * computed, only which inputs it was taken over.
   */
  datatype Value =
    | Undefined
    | Null
    | Bool(b: bool)
    | Num(n: int)
    | Str(s: string)
    | Bytes(bs: seq<byte>)
    | Arr(items: seq<Value>)
    | Obj(fields: seq<(string, Value)>)
    | Digest(challenge: Value, secret: Value)

  /** `items[i]` in JavaScript: `undefined` past the end. */
  function At(items: seq<Value>, i: nat): (r: Value)
    ensures i < |items| ==> r == items[i]
    ensures i >= |items| ==> r == Undefined
  {
    if i < |items| then items[i] else Undefined
  }

  /**
   * The argument list `f(...v)` passes: arrays give their elements, strings
   * their characters, byte arrays their numbers; anything else is not
   * iterable and the spread throws (`None`).
   */
  function Spread(v: Value): (r: Option<seq<Value>>)
    ensures v.Arr? ==> r == Some(v.items)
    ensures r.Some? <==> (v.Arr? || v.Str? || v.Bytes?)
    ensures r.Some? && v.Str? ==> |r.value| == |v.s|
    ensures r.Some? && v.Bytes? ==> |r.value| == |v.bs|
  {
    match v
    case Arr(items) => Some(items)
    case Str(s) => Some(seq(|s|, i requires 0 <= i < |s| => Str([s[i]])))
    case Bytes(bs) => Some(seq(|bs|, i requires 0 <= i < |bs| => Num(bs[i] as int)))
    case _ => None
  }

  /** The decimal numeral of `i`, the property name JavaScript reads for `v[i]`. */
  function DecimalKey(i: nat): (r: string)
    ensures |r| > 0 && (i < 10 <==> |r| == 1)
  {
    if i < 10 then ["0123456789"[i]] else DecimalKey(i / 10) + ["0123456789"[i % 10]]
  }

  /** The value of the last field named `key`, as an object built field by field keeps it. */
  function Field(fields: seq<(string, Value)>, key: string): (r: Value)
    ensures r != Undefined ==> exists j :: 0 <= j < |fields| && fields[j] == (key, r)
    ensures (forall j :: 0 <= j < |fields| ==> fields[j].0 != key) ==> r == Undefined
  {
    if |fields| == 0 then Undefined
    else if fields[|fields| - 1].0 == key then fields[|fields| - 1].1
    else Field(fields[..|fields| - 1], key)
  }

  /**
   * `v[i]` in JavaScript on a decoded value: the element of an array or a
   * byte string, the one-character string of a string, the property named
   * by the numeral of `i` of an object (a decoded CBOR map), and
   * `undefined` past the end or on anything else.
   */
  function Index(v: Value, i: nat): (r: Value)
    ensures v.Arr? ==> r == At(v.items, i)
    ensures v.Bytes? ==> r == if i < |v.bs| then Num(v.bs[i] as int) else Undefined
    ensures v.Obj? ==> r == Field(v.fields, DecimalKey(i))
    ensures !(v.Arr? || v.Bytes? || v.Str? || v.Obj?) ==> r == Undefined
  {
    match v
    case Arr(items) => At(items, i)
    case Bytes(bs) => if i < |bs| then Num(bs[i] as int) else Undefined
    case Str(s) => if i < |s| then Str([s[i]]) else Undefined
    case Obj(fields) => Field(fields, DecimalKey(i))
    case _ => Undefined
  }
}

=== FILE: wrappers.dfy ===
/** Failure-compatible wrappers shared by every module of the model. */
module Wrappers {

  /** A value that may be absent (JavaScript `null` where the source allows it). */
  datatype Option<+T> = None | Some(value: T)

  /** The outcome of an operation that may throw: `Err` carries what was thrown. */
  datatype Result<+R, +E> = Ok(value: R) | Err(error: E)
}
